=== FILE: README.md ===
# php-http-response: the Response builder in Dafny

This project models `Bayfront\HttpResponse\Response`, a small PHP object that
collects an HTTP response's status code, the headers to set, the headers to
remove and a body, and then flushes them to PHP's output functions. The
builder is modelled as an immutable record (`HttpResponse.Response`). Each
mutator is a pure function from record to record. `setStatusCode` and
`redirect` return a `Result` whose error case is `InvalidStatusCodeException`.

Files and modules:

- `wrappers.dfy` (`Wrappers`): `Option`, used for PHP `null`, and `Result`.
- `php_array.dfy` (`PhpArray`): PHP arrays as ordered entry lists with
  distinct keys. `Put` is `$a[$k] = $v`: an existing key keeps its position,
  a new key is appended. `Merge` is the `foreach ... $a[$k] = $v` loop that
  `setHeaders` and `removeHeaders` run.
- `php_text.dfy` (`PhpText`): PHP's `trim()` with its default character list,
  and integer-to-string conversion, with a round-trip proof.
- `status_codes.dfy` (`StatusCodes`): the status-code table, copied entry for
  entry, and `_isValidStatusCode`.
- `http_response.dfy` (`HttpResponse`): the record and its operations:
  `reset`, `setStatusCode`, `getStatusCode`, `removeHeaders`, `setHeaders`,
  `getHeaders`, `setBody`, `getBody`, `send`, `sendJson`, `_isValidRedirect`
  and `redirect`.
- `response_properties.dfy` (`ResponseProperties`): properties that relate
  several operations.
- `response_lifecycle.dfy` (`ResponseLifecycle`): a builder driven by a chain
  of mutator calls that stops at the first exception. This module proves the
  invariant that the status code is always a key of the table.

`send()` is modelled as the list of calls it makes into PHP, in order:
`header($line)`, `header_remove($name)` and `echo $body`. The result also
holds the builder as it is after `send()`'s own `reset()`.

The model follows the code in these places, where some descriptions of the
builder say otherwise:

- The body starts as `null` and `reset()` sets it back to `null`, not to `""`.
- `reset()` does not clear the removal array.
- `send()` passes the VALUES of the removal array to `header_remove()`. The
  keys play no part. `removeHeaders(['X-Powered-By'])` therefore removes
  `X-Powered-By`. Two list-shaped calls both write key `0`, so only the second
  name is removed (`ResponseProperties.OnlySecondRemovalSent`).
- `sendJson()` declares `application/vnd.api+json`.
- `redirect()` checks its status but never stores it (see Findings).

The table keeps its quirks. 205 carries the phrase "Partial Content", 206 is
absent, and 306 "Switch Proxy" is present (`StatusCodes.TableQuirks`). The
table is written as a `match` from code to optional phrase (`StatusCodes.Lookup`)
rather than a map literal. The lookup means the same thing as
`$valid_status_codes[$code]` and stays tractable for the verifier.

## Model

| member | source | states |
|---|---|---|
| PhpArray.Put | src/Response.php:212 | `$headers[$header] = $value`: the key then maps to the value, every other key keeps its lookup, an existing key keeps its position and length is unchanged, a new key is appended at the end |
| PhpArray.Merge | src/Response.php:210-214 | the foreach-assign loop: a key of the argument reads the argument's value, any other key reads the old value, old keys keep their positions, and the appended part is exactly the argument's entries with new keys, in the argument's order (`NewEntries`) |
| PhpArray.MergeIntoEmpty | src/Response.php:380-382 | writing an array into the empty headers array that `reset()` leaves reproduces that array exactly |
| PhpText.TrimLeftSpec | src/Response.php:296 | the left half of `trim()`: the result is the suffix left after removing exactly the leading run of space, tab, LF, CR, NUL and vertical-tab characters |
| PhpText.TrimRightSpec | src/Response.php:296 | the right half of `trim()`: the result is the prefix left after removing exactly the trailing run of those characters |
| PhpText.IntToStringRoundTrip | src/Response.php:296 | the decimal text that `.` produces for an integer reads back as that integer |
| PhpText.IntToStringInjective | src/Response.php:296 | different codes give different texts in the status line |
| StatusCodes.Lookup | src/Response.php:50-112 | `$valid_status_codes[$code]`: a code the table knows lies between 100 and 511 |
| StatusCodes.IsValidStatusCode | src/Response.php:122-125 | `_isValidStatusCode` over the table: in the redirect range [300, 400), exactly 300 to 308 are accepted |
| StatusCodes.AllPhrasesWellFormed | src/Response.php:50-112 | every phrase of the table is non-empty and begins and ends with a character that `trim()` keeps |
| StatusCodes.TableQuirks | src/Response.php:55-70 | 200 is OK, 205 is labelled "Partial Content", 206 is not a key, and 306 "Switch Proxy" is a key |
| HttpResponse.InitialValid | src/Response.php:38 | a new builder's status code 200 is a key of the table |
| HttpResponse.Reset | src/Response.php:21-30 | status 200, no headers to set, null body, the removal array unchanged, and the result satisfies the invariant |
| HttpResponse.SetStatusCode | src/Response.php:137-150 | succeeds if and only if the code is a key of the table; on success only the status changes; otherwise it raises InvalidStatusCode with the source's message and yields no new state |
| HttpResponse.GetStatusCode | src/Response.php:158-166 | on a valid builder it returns the current code and the phrase that the table gives it |
| HttpResponse.RemoveHeaders | src/Response.php:184-195 | each entry of the argument is written into the removal array, existing keys keep their positions, new keys are appended in the argument's order, and headers, status and body are unchanged |
| HttpResponse.SetHeaders | src/Response.php:207-218 | each entry of the argument is written into the headers to set, existing keys keep their positions, new keys are appended in the argument's order, and the removal array, status and body are unchanged |
| HttpResponse.SetBody | src/Response.php:247-254 | the body becomes exactly the argument; status and both header arrays are unchanged |
| HttpResponse.Send | src/Response.php:279-328 | emits the status line first, then one `header_remove` per removal-array value in order, then one `header("k: v")` per header in order, then one more call exactly when the body is not null: the `echo` of the body. It ends in the reset state |
| HttpResponse.StatusLine | src/Response.php:284-296 | `trim()` only strips leading characters of the protocol label, and drops it with its space when it consists only of characters `trim()` strips; code and phrase survive intact |
| ResponseProperties.DefaultStatusLine | src/Response.php:284-296 | without `SERVER_PROTOCOL` the line is `HTTP/1.1 <code> <phrase>` |
| ResponseProperties.SetThenGetStatusCode | src/Response.php:137-166 | setting a code of the table succeeds, and `getStatusCode()` then returns that code and its phrase |
| ResponseProperties.SetHeadersLastWriteWins | src/Response.php:207-218 | over two `setHeaders` calls the later value wins for a shared key, and keys named in only one call keep that call's value |
| ResponseProperties.ResetForgetsAllButRemovals | src/Response.php:21-30 | two builders reset to the same state exactly when their removal arrays agree, and `reset` is idempotent |
| ResponseProperties.SendRemovesBeforeSetting | src/Response.php:300-314 | every `header_remove` that `send()` emits comes before every header that it sets |
| ResponseProperties.RemoveThenSetIsEmitted | src/Response.php:300-314 | after `removeHeaders(['X'])` and `setHeaders(['X' => v])`, `send()` removes X and later sets `X: v` |
| ResponseProperties.SendRemovesOnlyListed | src/Response.php:300-306 | every `header_remove` that `send()` emits sits at position 1 + i and names the value of the i-th removal entry |
| ResponseProperties.SendRemovesExactlyListed | src/Response.php:300-306 | `send()` calls `header_remove(name)` if and only if `name` is a value of the removal array |
| ResponseProperties.SendEchoesOnlyBody | src/Response.php:316-320 | the only `echo` that `send()` makes is the last call, and it prints the non-null body |
| ResponseProperties.RemovalListsOverwrite | src/Response.php:184-195 | two list-shaped `removeHeaders` calls on an empty removal array both write key 0, leaving only the second name |
| ResponseProperties.OnlySecondRemovalSent | src/Response.php:184-195 | after `removeHeaders(['A'])->removeHeaders(['B'])` with A and B different, `send()` removes B and never removes A |
| HttpResponse.SendJson | src/Response.php:338-345 | `sendJson()` sends the unchanged status line, then every removal, then the headers with `Content-Type` set to `application/vnd.api+json` in place (an existing entry is overwritten, so no other content type is sent). It echoes the encoded text last and ends in the reset state |
| HttpResponse.Redirect | src/Response.php:355-386 | `redirect()` throws InvalidStatusCode with its message if and only if `_isValidRedirect` rejects the status (outside [300, 400)); otherwise it emits the status line for 200, the surviving removals and a single `Location` header, with no body, and ends in the reset state |
| ResponseProperties.RedirectIgnoresStatus | src/Response.php:371-386 | the first `header()` call of a 301 redirect from a new builder carries `HTTP/1.1 200 OK`, not the requested code |
| HttpResponse.RedirectDefault | src/Response.php:371 | `redirect($url)` with the default status 302 never throws, and sends the status line for 200 first and the `Location` header last |
| HttpResponse.RedirectWithStatus | src/Response.php:371-386 | the corrected redirect succeeds exactly for 300 to 308, throws the redirect message outside [300, 400) and the set-status message for 309 to 399, and emits the requested code's status line, the removals and the `Location` header |
| ResponseProperties.RedirectWithStatusMovedPermanently | src/Response.php:371-386 | with the correction, the first `header()` call of a 301 redirect carries `HTTP/1.1 301 Moved Permanently` |
| ResponseLifecycle.Apply | src/Response.php:137-150 | among the mutators, exactly `setStatusCode` with a code outside the table throws, and every successful call keeps the invariant |
| ResponseLifecycle.RunPreservesValid | src/Response.php:137-150 | from a valid builder, every chain of calls leaves the status code a key of the table |
| ResponseLifecycle.ReachableStatusHasPhrase | src/Response.php:158-166 | on any builder reached from a new one, `getStatusCode()` is defined and returns the table's phrase |
| ResponseLifecycle.RunFailsExactlyOnInvalidCode | src/Response.php:137-150 | a chain throws if and only if it contains a `setStatusCode` with a code outside the table, and the exception is then InvalidStatusCode |
| ResponseLifecycle.RunSnoc | src/Response.php:137-150 | extending a chain that has not thrown by one call applies that call to the state reached |
| ResponseLifecycle.RunMatchesLastWrites | src/Response.php:21-30 | when nothing throws, the status is the one set by the last `reset` or `setStatusCode`, and the body is the one set by the last `setBody` unless a later `reset` nulls it |
| ResponseLifecycle.BodyNullUntilSet | src/Response.php:237-265 | `getBody()` stays null through any chain that contains no `setBody` |
| ResponseLifecycle.RemovalsOnlyGrow | src/Response.php:21-30 | no call, `reset` included, removes a key from the removal array |

## Findings

| source | as written | input that shows it | evidently intended | confidence | as-written member | corrected member |
|---|---|---|---|---|---|---|
| src/Response.php:371-386 | `redirect()` validates `$status` but never calls `setStatusCode($status)`; its `reset()` leaves 200 | `redirect('/x', 301)` on a new builder passes `HTTP/1.1 200 OK` to its first `header()` call | the status line carries the requested redirect code, e.g. `HTTP/1.1 301 Moved Permanently` | high; not executed | ResponseProperties.RedirectIgnoresStatus | HttpResponse.RedirectWithStatus |

`HttpResponse.Redirect` models the code as written. `HttpResponse.RedirectWithStatus`
is the corrected definition. It also sets the status, so redirect-range codes
outside the table (309 to 399) are refused by `setStatusCode`. What the client
finally sees differs from the first `header()` call: PHP's own handling of a
`Location` header turns any status below 300, here the 200, into 302 (or 303
for a request other than GET or HEAD over HTTP/1.1 or later). The real symptom
is therefore that every redirect goes out as 302 or 303, whatever status was
requested.

## Left out

- The effects of `header()`, `header_remove()` and `echo` on the host are left out. They are host output, so the model only records the calls in order.
- `exit` after `send()` and `redirect()` ends the process. Only shutdown functions and destructors run after it. The model returns the emissions and the post-`reset()` builder, `final == Reset(r)`: the state such a function or destructor sees through `getStatusCode()`, `getHeaders()` or `getBody()` if it holds the builder.
- The read of `$_SERVER['SERVER_PROTOCOL']` is environment input. It is a parameter, and `None` stands for "not set".
- `json_encode` is a foreign serializer. `sendJson` takes its result as a parameter, and `None` stands for its `false`, which `setBody`'s string parameter turns into `""`.
- `src/InvalidStatusCodeException.php` has no logic. It appears only as the error value `HttpResponse.Error`.
- PHP's conversion of decimal-integer string keys to integer keys happens before an array reaches the builder. The model takes arrays with keys already converted.
- Array values are modelled as strings. PHP accepts any value and converts it with `.` when building a header line. That conversion is not modelled.
- PHP's rewriting of the status when `header("Location: ...")` is called after a non-3xx status line is host behaviour. The model stops at the calls, so it states what the first `header()` call carries, not the status the client receives.
- `GetHeaders` and `GetBody` are plain accessors with no contract of their own. The lemmas state their properties.

=== FILE: http_response.dfy ===
/** The response builder: a record of status code, headers to set, headers
    to remove and a nullable body, with its fluent mutators, its getters and
    the terminal operations that flush it to the host. */
module HttpResponse {
  import opened Wrappers
  import opened PhpArray
  import opened PhpText
  import opened StatusCodes

  /** The only error: the exception `InvalidStatusCodeException` with its message. */
  datatype Error = InvalidStatusCode(message: string)

  const SetStatusCodeMessage := "Unable to set status code: invalid status code"
  const RedirectMessage := "Unable to redirect: invalid status code"

  /** The builder's four fields. `removeHeaders` is the PHP array that
      `removeHeaders()` fills; its VALUES are the names handed to
      `header_remove()`. */
  datatype Response = Response(
    statusCode: int,
    headers: Arr,
    removeHeaders: Arr,
    body: Option<string>)

  /** The header names the terminal operations set. */
  const ContentTypeHeader := "Content-Type"
  const LocationHeader := "Location"

  /** A freshly constructed builder. */
  const Initial := Response(200, [], [], None)

  /** The invariant every reachable builder keeps: its status code is a key of the table. */
  predicate Valid(r: Response)
  {
    IsValidStatusCode(r.statusCode)
  }

  /** What `getStatusCode()` returns: `['code' => ..., 'phrase' => ...]`. */
  datatype StatusInfo = StatusInfo(code: int, phrase: string)

  /** One call into the host's output facility. */
  datatype Emission =
    | HeaderLine(line: string)     // header($line)
    | HeaderRemove(name: string)   // header_remove($name)
    | Echo(text: string)           // echo $text

  /** What a terminal operation leaves behind: the host calls it made, in
      order, and the builder after its final `reset()`. Only shutdown
      functions and destructors run after the `exit` that follows; a builder
      they hold shows them `final`, which is `Reset(r)`. */
  datatype Sent = Sent(emitted: seq<Emission>, final: Response)

  lemma InitialValid()
    ensures Valid(Initial)
  {
    assert Lookup(200) == Some("OK");
  }

  /** `reset()`: status 200, no headers to set, null body; the removal
      array is NOT cleared. */
  function Reset(r: Response): (r': Response)
    ensures r'.statusCode == 200 && r'.headers == [] && r'.body == None
    ensures r'.removeHeaders == r.removeHeaders
    ensures Valid(r')
  {
    InitialValid();
    Response(200, [], r.removeHeaders, None)
  }

  /** `setStatusCode($code)`: succeeds exactly for keys of the table and
      then changes only the status code; otherwise throws and changes nothing. */
  function SetStatusCode(r: Response, code: int): (res: Result<Response, Error>)
    ensures res.Success? <==> IsValidStatusCode(code)
    ensures res.Success? ==> res.value == r.(statusCode := code) && Valid(res.value)
    ensures res.Failure? ==> res.error == InvalidStatusCode(SetStatusCodeMessage)
  {
    if IsValidStatusCode(code) then Success(r.(statusCode := code))
    else Failure(InvalidStatusCode(SetStatusCodeMessage))
  }

  /** `getStatusCode()`: the current code with its phrase from the table. */
  function GetStatusCode(r: Response): (s: StatusInfo)
    requires Valid(r)
    ensures s.code == r.statusCode
    ensures Lookup(s.code) == Some(s.phrase)
  {
    StatusInfo(r.statusCode, Phrase(r.statusCode))
  }

  /** `removeHeaders($h)`: each entry of `h` is written into the removal
      array (same key overwrites, keeping its position; new keys follow in
      the order of `h`); nothing else changes. */
  function RemoveHeaders(r: Response, h: Arr): (r': Response)
    ensures forall k :: Get(r'.removeHeaders, k) == if Get(h, k).Some? then Get(h, k) else Get(r.removeHeaders, k)
    ensures |r.removeHeaders| <= |r'.removeHeaders| &&
      forall i :: 0 <= i < |r.removeHeaders| ==> r'.removeHeaders[i].0 == r.removeHeaders[i].0
    ensures EndsWith(r'.removeHeaders, |r.removeHeaders|, NewEntries(r.removeHeaders, h))
    ensures r'.statusCode == r.statusCode && r'.headers == r.headers && r'.body == r.body
  {
    var m := Merge(r.removeHeaders, h);
    Response(r.statusCode, r.headers, m, r.body)
  }

  /** `setHeaders($h)`: each entry of `h` is written into the headers to
      set (same key overwrites, keeping its position; new keys follow in the
      order of `h`); nothing else changes. */
  function SetHeaders(r: Response, h: Arr): (r': Response)
    ensures forall k :: Get(r'.headers, k) == if Get(h, k).Some? then Get(h, k) else Get(r.headers, k)
    ensures |r.headers| <= |r'.headers| && forall i :: 0 <= i < |r.headers| ==> r'.headers[i].0 == r.headers[i].0
    ensures EndsWith(r'.headers, |r.headers|, NewEntries(r.headers, h))
    ensures r'.statusCode == r.statusCode && r'.removeHeaders == r.removeHeaders && r'.body == r.body
  {
    var m := Merge(r.headers, h);
    Response(r.statusCode, m, r.removeHeaders, r.body)
  }

  /** `getHeaders()`: the headers to set, without the removals. */
  function GetHeaders(r: Response): Arr
  {
    r.headers
  }

  /** `setBody($b)`: replaces the body; nothing else changes. */
  function SetBody(r: Response, b: string): (r': Response)
    ensures r'.body == Some(b)
    ensures r'.statusCode == r.statusCode && r'.headers == r.headers && r'.removeHeaders == r.removeHeaders
  {
    r.(body := Some(b))
  }

  /** `getBody()`: the body, or null if none has been set since the last reset. */
  function GetBody(r: Response): Option<string>
  {
    r.body
  }

  /** The protocol label `send()` puts in the status line: the server's
      `SERVER_PROTOCOL` when it is set, `HTTP/1.1` otherwise. */
  function Protocol(serverProtocol: Option<string>): string
  {
    serverProtocol.GetOr("HTTP/1.1")
  }

  /** The status line `send()` emits:
      `trim($protocol . ' ' . $code . ' ' . $phrase)`. `trim()` only ever
      strips leading characters of the protocol label (and the label with
      its space when it consists only of characters `trim()` strips): code
      and phrase survive intact. */
  function StatusLine(serverProtocol: Option<string>, code: int): (line: string)
    requires IsValidStatusCode(code)
    ensures var p := Protocol(serverProtocol);
      line == (if AllTrimChars(p) then "" else TrimLeft(p) + " ") + IntToString(code) + " " + Phrase(code)
  {
    AllPhrasesWellFormed(code);
    TrimSpaced(Protocol(serverProtocol), IntToString(code), Phrase(code));
    Trim(Protocol(serverProtocol) + " " + IntToString(code) + " " + Phrase(code))
  }

  /** The text of an array key, as PHP's `.` operator renders it. */
  function KeyText(k: Key): string
  {
    match k
    case IntKey(n) => IntToString(n)
    case StrKey(s) => s
  }

  /** The `foreach ($this->remove_headers as $remove)` loop of `send()`:
      one `header_remove()` per entry, named by the entry's VALUE. */
  function RemovalCalls(rm: seq<(Key, string)>): (e: seq<Emission>)
    ensures |e| == |rm|
    ensures forall i :: 0 <= i < |rm| ==> e[i] == HeaderRemove(rm[i].1)
  {
    if |rm| == 0 then [] else [HeaderRemove(rm[0].1)] + RemovalCalls(rm[1..])
  }

  /** The `foreach ($this->getHeaders() as $k => $v)` loop of `send()`:
      one `header("$k: $v")` per entry, in array order. */
  function HeaderCalls(h: seq<(Key, string)>): (e: seq<Emission>)
    ensures |e| == |h|
    ensures forall i :: 0 <= i < |h| ==> e[i] == HeaderLine(KeyText(h[i].0) + ": " + h[i].1)
  {
    if |h| == 0 then [] else [HeaderLine(KeyText(h[0].0) + ": " + h[0].1)] + HeaderCalls(h[1..])
  }

  /** The body is echoed only when it is not null. */
  function BodyCalls(body: Option<string>): seq<Emission>
  {
    match body
    case None => []
    case Some(b) => [Echo(b)]
  }

  /** Indexing into a concatenation of four sequences. */
  lemma ConcatIndex<T>(a: seq<T>, b: seq<T>, c: seq<T>, d: seq<T>)
    ensures |a + b + c + d| == |a| + |b| + |c| + |d|
    ensures forall i :: 0 <= i < |a| ==> (a + b + c + d)[i] == a[i]
    ensures forall i :: 0 <= i < |b| ==> (a + b + c + d)[|a| + i] == b[i]
    ensures forall i :: 0 <= i < |c| ==> (a + b + c + d)[|a| + |b| + i] == c[i]
    ensures forall i :: 0 <= i < |d| ==> (a + b + c + d)[|a| + |b| + |c| + i] == d[i]
  {
  }

  /** `send()`: status line, then the removals, then the headers, then the
      body if it is not null; then `reset()` and `exit`. */
  function Send(r: Response, serverProtocol: Option<string>): (s: Sent)
    requires Valid(r)
    ensures |s.emitted| == 1 + |r.removeHeaders| + |r.headers| + (if r.body.Some? then 1 else 0)
    ensures s.emitted[0] == HeaderLine(StatusLine(serverProtocol, r.statusCode))
    ensures forall i :: 0 <= i < |r.removeHeaders| ==> s.emitted[1 + i] == HeaderRemove(r.removeHeaders[i].1)
    ensures forall i :: 0 <= i < |r.headers| ==>
      s.emitted[1 + |r.removeHeaders| + i] == HeaderLine(KeyText(r.headers[i].0) + ": " + r.headers[i].1)
    ensures r.body.Some? ==> s.emitted[|s.emitted| - 1] == Echo(r.body.value)
    ensures s.final == Reset(r)
  {
    var status := [HeaderLine(StatusLine(serverProtocol, r.statusCode))];
    var removals := RemovalCalls(r.removeHeaders);
    var headers := HeaderCalls(r.headers);
    var body := BodyCalls(r.body);
    ConcatIndex(status, removals, headers, body);
    Sent(status + removals + headers + body, Reset(r))
  }

  /** What `send()` emits, as the concatenation of its four parts. */
  lemma SendLayout(r: Response, serverProtocol: Option<string>)
    requires Valid(r)
    ensures Send(r, serverProtocol).emitted
      == [HeaderLine(StatusLine(serverProtocol, r.statusCode))] + RemovalCalls(r.removeHeaders) + HeaderCalls(r.headers) + BodyCalls(r.body)
  {
  }

  /** Position 1 + i of what `send()` emits removes the i-th entry's value. */
  lemma SendRemovalAt(r: Response, serverProtocol: Option<string>, i: int)
    requires Valid(r) && 0 <= i < |r.removeHeaders|
    ensures Send(r, serverProtocol).emitted[1 + i] == HeaderRemove(r.removeHeaders[i].1)
  {
  }

  /** Position 1 + |removals| + j of what `send()` emits sets the j-th header. */
  lemma SendHeaderAt(r: Response, serverProtocol: Option<string>, j: int)
    requires Valid(r) && 0 <= j < |r.headers|
    ensures Send(r, serverProtocol).emitted[1 + |r.removeHeaders| + j]
      == HeaderLine(KeyText(r.headers[j].0) + ": " + r.headers[j].1)
  {
  }

  /** The media type `sendJson()` declares. */
  const JsonContentType := "application/vnd.api+json"

  /** Setting the JSON content type and a body, then sending, emits the
      `Content-Type` line. */
  lemma JsonHeaderSent(r: Response, b: string, serverProtocol: Option<string>)
    requires Valid(r)
    ensures HeaderLine(ContentTypeHeader + ": " + JsonContentType)
      in Send(SetBody(SetHeaders(r, [(StrKey(ContentTypeHeader), JsonContentType)]), b), serverProtocol).emitted
  {
    var h := [(StrKey(ContentTypeHeader), JsonContentType)];
    var r1 := SetHeaders(r, h);
    assert Get(r1.headers, StrKey(ContentTypeHeader)) == Some(JsonContentType) by {
      assert Get(h, StrKey(ContentTypeHeader)) == Some(JsonContentType);
    }
    var j := IndexOf(r1.headers, StrKey(ContentTypeHeader)).value;
    var r2 := SetBody(r1, b);
    SendHeaderAt(r2, serverProtocol, j);
  }

  /** `sendJson($array)`: sets `Content-Type`, sets the body to the JSON
      encoding of the array and sends. `encoded` is what `json_encode`
      returned; None stands for its `false`, which `setBody`'s string
      parameter turns into the empty string. The status line is the
      builder's, the JSON API media type is declared, and the encoded text
      is echoed last. Between them come every removal and then the headers
      with `Content-Type` written as by `$a[$k] = $v`: an existing entry is
      overwritten in place, so no other content type is sent. */
  function SendJson(r: Response, encoded: Option<string>, serverProtocol: Option<string>): (s: Sent)
    requires Valid(r)
    ensures |s.emitted| >= 3
    ensures s.emitted[0] == HeaderLine(StatusLine(serverProtocol, r.statusCode))
    ensures HeaderLine(ContentTypeHeader + ": " + JsonContentType) in s.emitted
    ensures var hs := Put(r.headers, StrKey(ContentTypeHeader), JsonContentType);
      && |s.emitted| == 2 + |r.removeHeaders| + |hs|
      && (forall i :: 0 <= i < |r.removeHeaders| ==> s.emitted[1 + i] == HeaderRemove(r.removeHeaders[i].1))
      && (forall i :: 0 <= i < |hs| ==> s.emitted[1 + |r.removeHeaders| + i] == HeaderLine(KeyText(hs[i].0) + ": " + hs[i].1))
    ensures s.emitted[|s.emitted| - 1] == Echo(encoded.GetOr(""))
    ensures s.final == Reset(r)
  {
    JsonHeaderSent(r, encoded.GetOr(""), serverProtocol);
    MergeOne(r.headers, StrKey(ContentTypeHeader), JsonContentType);
    Send(SetBody(SetHeaders(r, [(StrKey(ContentTypeHeader), JsonContentType)]), encoded.GetOr("")), serverProtocol)
  }

  /** `_isValidRedirect`: the code lies in [300, 400). */
  predicate IsValidRedirect(status: int)
  {
    300 <= status < 400
  }

  /** The builder `redirect()` sends: reset, with only `Location` set. */
  function RedirectTarget(r: Response, url: string): Response
  {
    SetHeaders(Reset(r), [(StrKey(LocationHeader), url)])
  }

  /** Sending a builder whose only header is `Location` and whose body is
      null emits the status line, the removals and the `Location` line. */
  lemma LocationOnlySent(r: Response, url: string, serverProtocol: Option<string>)
    requires Valid(r) && r.body == None && r.headers == [(StrKey(LocationHeader), url)]
    ensures Send(r, serverProtocol).emitted
      == [HeaderLine(StatusLine(serverProtocol, r.statusCode))] + RemovalCalls(r.removeHeaders) + [HeaderLine(LocationHeader + ": " + url)]
  {
    SendLayout(r, serverProtocol);
    assert HeaderCalls(r.headers) == [HeaderLine(LocationHeader + ": " + url)];
  }

  /** `redirect($url, $status)`: throws unless the status is a redirect
      code; otherwise resets, sets `Location` and sends. The status is
      checked but never stored, so the status line is the one for 200. */
  function Redirect(r: Response, url: string, status: int, serverProtocol: Option<string>): (res: Result<Sent, Error>)
    ensures res.Failure? <==> !IsValidRedirect(status)
    ensures res.Failure? ==> res.error == InvalidStatusCode(RedirectMessage)
    ensures res.Success? ==> (res.value.emitted
      == [HeaderLine(StatusLine(serverProtocol, 200))] + RemovalCalls(r.removeHeaders) + [HeaderLine(LocationHeader + ": " + url)])
    ensures res.Success? ==> res.value.final == Reset(r)
  {
    if !IsValidRedirect(status) then Failure(InvalidStatusCode(RedirectMessage))
    else
      MergeIntoEmpty([(StrKey(LocationHeader), url)]);
      LocationOnlySent(RedirectTarget(r, url), url, serverProtocol);
      Success(Send(RedirectTarget(r, url), serverProtocol))
  }

  /** `redirect($url)`: the status defaults to 302, a redirect code, so the
      call always sends. */
  function RedirectDefault(r: Response, url: string, serverProtocol: Option<string>): (res: Result<Sent, Error>)
    ensures res.Success? && |res.value.emitted| >= 2
    ensures res.value.emitted[0] == HeaderLine(StatusLine(serverProtocol, 200))
    ensures res.value.emitted[|res.value.emitted| - 1] == HeaderLine(LocationHeader + ": " + url)
  {
    Redirect(r, url, 302, serverProtocol)
  }

  /** `redirect()` as evidently intended: the validated status is also set
      on the response, so it appears in the status line. Codes of the
      redirect range that are not in the table (309 to 399) are refused by
      `setStatusCode`, so the call succeeds exactly for 300 to 308. */
  function RedirectWithStatus(r: Response, url: string, status: int, serverProtocol: Option<string>): (res: Result<Sent, Error>)
    ensures res.Success? <==> 300 <= status <= 308
    ensures !IsValidRedirect(status) ==> res == Failure(InvalidStatusCode(RedirectMessage))
    ensures IsValidRedirect(status) && res.Failure? ==> res == Failure(InvalidStatusCode(SetStatusCodeMessage))
    ensures res.Success? ==> (res.value.emitted
      == [HeaderLine(StatusLine(serverProtocol, status))] + RemovalCalls(r.removeHeaders) + [HeaderLine(LocationHeader + ": " + url)])
    ensures res.Success? ==> res.value.final == Reset(r)
  {
    if !IsValidRedirect(status) then Failure(InvalidStatusCode(RedirectMessage))
    else match SetStatusCode(Reset(r), status)
      case Failure(e) => Failure(e)
      case Success(s) =>
        MergeIntoEmpty([(StrKey(LocationHeader), url)]);
        LocationOnlySent(SetHeaders(s, [(StrKey(LocationHeader), url)]), url, serverProtocol);
        Success(Send(SetHeaders(s, [(StrKey(LocationHeader), url)]), serverProtocol))
  }
}

=== FILE: php_array.dfy ===
/** PHP arrays as the response builder uses them: an ordered list of
    key/value entries in which every key occurs at most once. Assigning to
    an existing key overwrites its value in place; assigning to a new key
    appends it at the end. */
module PhpArray {
  import opened Wrappers

  /** A PHP array key. Integers and strings are distinct keys; PHP turns a
      decimal integer string into an integer key before it reaches us. */
  datatype Key = IntKey(n: int) | StrKey(s: string)

  predicate DistinctKeys(a: seq<(Key, string)>)
  {
    forall i, j :: 0 <= i < j < |a| ==> a[i].0 != a[j].0
  }

  /** A PHP array whose values are strings. */
  type Arr = a: seq<(Key, string)> | DistinctKeys(a) witness []

  /** The position of the first entry with key `k`, if there is one. */
  function IndexOf(a: seq<(Key, string)>, k: Key): (r: Option<nat>)
    ensures r.Some? ==> r.value < |a| && a[r.value].0 == k
    ensures r.Some? ==> forall j :: 0 <= j < r.value ==> a[j].0 != k
    ensures r.None? <==> forall i :: 0 <= i < |a| ==> a[i].0 != k
  {
    if |a| == 0 then None
    else if a[0].0 == k then Some(0)
    else match IndexOf(a[1..], k)
      case None => None
      case Some(i) => Some(i + 1)
  }

  /** `$a[$k] ?? null`: the value stored under `k`, if any. */
  function Get(a: seq<(Key, string)>, k: Key): Option<string>
  {
    match IndexOf(a, k)
    case None => None
    case Some(i) => Some(a[i].1)
  }

  /** In a key-distinct array the entry at position i is what Get finds. */
  lemma GetAt(a: seq<(Key, string)>, i: int)
    requires DistinctKeys(a)
    requires 0 <= i < |a|
    ensures IndexOf(a, a[i].0) == Some(i)
    ensures Get(a, a[i].0) == Some(a[i].1)
  {
  }

  /** The first occurrence of a key is unaffected by appending an entry. */
  lemma {:induction false} IndexOfSnoc(a: seq<(Key, string)>, k: Key, v: string, k': Key)
    requires IndexOf(a, k).None?
    ensures IndexOf(a + [(k, v)], k') == if k' == k then Some(|a|) else IndexOf(a, k')
  {
    if |a| > 0 {
      assert (a + [(k, v)])[1..] == a[1..] + [(k, v)];
      if a[0].0 != k' {
        IndexOfSnoc(a[1..], k, v, k');
      }
    }
  }

  /** Appending an entry with a fresh key changes only that key's lookup. */
  lemma AppendLookups(a: seq<(Key, string)>, k: Key, v: string)
    requires Get(a, k).None?
    ensures forall k' :: Get(a + [(k, v)], k') == if k' == k then Some(v) else Get(a, k')
  {
    forall k' ensures Get(a + [(k, v)], k') == if k' == k then Some(v) else Get(a, k') {
      IndexOfSnoc(a, k, v, k');
    }
  }

  /** Overwriting the entry at position i changes only that key's lookup. */
  lemma OverwriteLookups(a: Arr, i: nat, k: Key, v: string)
    requires i < |a| && a[i].0 == k
    ensures DistinctKeys(a[i := (k, v)])
    ensures Get(a[i := (k, v)], k) == Some(v)
    ensures forall k' :: k' != k ==> Get(a[i := (k, v)], k') == Get(a, k')
  {
    var r := a[i := (k, v)];
    assert DistinctKeys(r);
    GetAt(r, i);
    forall k' | k' != k ensures Get(r, k') == Get(a, k') {
      match IndexOf(a, k') {
        case None =>
        case Some(j) => GetAt(r, j);
      }
    }
  }

  /** `$a[$k] = $v`. */
  function Put(a: Arr, k: Key, v: string): (r: Arr)
    ensures Get(r, k) == Some(v)
    ensures forall k' :: k' != k ==> Get(r, k') == Get(a, k')
    ensures Get(a, k).Some? ==> |r| == |a|
    ensures Get(a, k).None? ==> r == a + [(k, v)]
    ensures |a| <= |r| && forall i :: 0 <= i < |a| ==> r[i].0 == a[i].0
  {
    match IndexOf(a, k)
    case None =>
      AppendLookups(a, k, v);
      a + [(k, v)]
    case Some(i) =>
      OverwriteLookups(a, i, k, v);
      a[i := (k, v)]
  }

  /** The last key of an array does not occur before it. */
  lemma InitLacksLastKey(b: Arr)
    requires |b| > 0
    ensures Get(b[..|b| - 1], b[|b| - 1].0).None?
  {
    var init := b[..|b| - 1];
    forall i | 0 <= i < |init| ensures init[i].0 != b[|b| - 1].0 {
      assert init[i] == b[i];
    }
  }

  /** The lookups of an array split off its last entry. */
  lemma SplitLast(b: Arr)
    requires |b| > 0
    ensures Get(b[..|b| - 1], b[|b| - 1].0).None?
    ensures forall k :: Get(b, k) == if k == b[|b| - 1].0 then Some(b[|b| - 1].1) else Get(b[..|b| - 1], k)
  {
    var init, last := b[..|b| - 1], b[|b| - 1];
    InitLacksLastKey(b);
    AppendLookups(init, last.0, last.1);
    assert b == init + [last];
  }

  /** The entries of `b` whose key `a` lacks, in `b`'s order: what the
      foreach-assign loop appends to `a`. */
  function NewEntries(a: seq<(Key, string)>, b: seq<(Key, string)>): seq<(Key, string)>
    decreases |b|
  {
    if |b| == 0 then []
    else NewEntries(a, b[..|b| - 1]) + (if Get(a, b[|b| - 1].0).None? then [b[|b| - 1]] else [])
  }

  /** From position `from` on, `r` holds exactly the entries `n`, in order. */
  predicate EndsWith(r: seq<(Key, string)>, from: nat, n: seq<(Key, string)>)
  {
    |r| == from + |n| && forall i :: 0 <= i < |n| ==> r[from + i] == n[i]
  }

  /** Appending to the new entries of an array's first part. */
  lemma NewEntriesSnoc(a: seq<(Key, string)>, b: seq<(Key, string)>)
    requires |b| > 0
    ensures Get(a, b[|b| - 1].0).None? ==> NewEntries(a, b) == NewEntries(a, b[..|b| - 1]) + [b[|b| - 1]]
    ensures Get(a, b[|b| - 1].0).Some? ==> NewEntries(a, b) == NewEntries(a, b[..|b| - 1])
  {
  }

  /** Overwriting an entry before position n leaves the part from n on alone. */
  lemma PutBeforeKeepsTail(m: Arr, n: nat, j: nat, k: Key, v: string)
    requires j < n <= |m| && m[j].0 == k
    ensures Put(m, k, v)[n..] == m[n..]
  {
    GetAt(m, j);
    assert Put(m, k, v) == m[j := (k, v)];
  }

  /** Appending a fresh key adds it at the end of the part from n on. */
  lemma PutAfterExtendsTail(m: Arr, n: nat, k: Key, v: string)
    requires n <= |m| && Get(m, k).None?
    ensures Put(m, k, v)[n..] == m[n..] + [(k, v)]
  {
    assert (m + [(k, v)])[n..] == m[n..] + [(k, v)];
  }

  /** One step of the foreach-assign loop keeps the appended part equal to
      the new entries seen so far. */
  lemma PutExtendsNewEntries(a: Arr, b: Arr, m: Arr)
    requires |b| > 0 && Get(b[..|b| - 1], b[|b| - 1].0).None?
    requires |a| <= |m| && forall i :: 0 <= i < |a| ==> m[i].0 == a[i].0
    requires m[|a|..] == NewEntries(a, b[..|b| - 1])
    requires Get(m, b[|b| - 1].0) == Get(a, b[|b| - 1].0)
    ensures Put(m, b[|b| - 1].0, b[|b| - 1].1)[|a|..] == NewEntries(a, b)
  {
    var k, v := b[|b| - 1].0, b[|b| - 1].1;
    NewEntriesSnoc(a, b);
    match IndexOf(a, k) {
      case None =>
        PutAfterExtendsTail(m, |a|, k, v);
      case Some(j) =>
        PutBeforeKeepsTail(m, |a|, j, k, v);
    }
  }

  /** `foreach ($b as $k => $v) { $a[$k] = $v; }`: the entries of `b` are
      written into `a` in order. */
  function Merge(a: Arr, b: Arr): (r: Arr)
    ensures forall k :: Get(r, k) == if Get(b, k).Some? then Get(b, k) else Get(a, k)
    ensures |a| <= |r| && forall i :: 0 <= i < |a| ==> r[i].0 == a[i].0
    ensures EndsWith(r, |a|, NewEntries(a, b))
    decreases |b|
  {
    if |b| == 0 then a
    else
      SplitLast(b);
      var m := Merge(a, b[..|b| - 1]);
      assert m[|a|..] == NewEntries(a, b[..|b| - 1]);
      PutExtendsNewEntries(a, b, m);
      var r := Put(m, b[|b| - 1].0, b[|b| - 1].1);
      assert forall i :: 0 <= i < |NewEntries(a, b)| ==> r[|a| + i] == r[|a|..][i];
      r
  }

  /** Against an empty array every entry is new. */
  lemma {:induction false} NewEntriesFromEmpty(b: Arr)
    ensures NewEntries([], b) == b
    decreases |b|
  {
    if |b| > 0 {
      NewEntriesFromEmpty(b[..|b| - 1]);
      assert b == b[..|b| - 1] + [b[|b| - 1]];
    }
  }

  /** Writing an array into an empty one reproduces it. */
  lemma {:induction false} MergeIntoEmpty(b: Arr)
    ensures Merge([], b) == b
  {
    NewEntriesFromEmpty(b);
    var r := Merge([], b);
    assert EndsWith(r, 0, b);
  }

  /** Writing a one-entry array is a single assignment. */
  lemma MergeOne(a: Arr, k: Key, v: string)
    ensures Merge(a, [(k, v)]) == Put(a, k, v)
  {
    assert [(k, v)][..0] == [];
  }

  /** Two list-shaped arrays written into an empty one: both use key 0, so
      only the second value is left. */
  lemma SecondListWins(x: string, y: string)
    ensures Merge(Merge([], [(IntKey(0), x)]), [(IntKey(0), y)]) == [(IntKey(0), y)]
  {
    MergeIntoEmpty([(IntKey(0), x)]);
    MergeOne([(IntKey(0), x)], IntKey(0), y);
    var m := Put([(IntKey(0), x)], IntKey(0), y);
    assert Get([(IntKey(0), x)], IntKey(0)).Some?;
    assert |m| == 1 && m[0].0 == IntKey(0);
  }
}

=== FILE: php_text.dfy ===
/** The two PHP string built-ins the status line depends on: integer to
    string conversion (as done by the `.` operator) and `trim()` with its
    default character list. */
module PhpText {

  /** The characters `trim()` strips by default: space, tab, line feed,
      carriage return, NUL and vertical tab. */
  predicate IsTrimChar(c: char)
  {
    c == ' ' || c == '\t' || c == '\n' || c == '\r' || c == '\0' || c == '\U{B}'
  }

  predicate AllTrimChars(s: string)
  {
    forall i :: 0 <= i < |s| ==> IsTrimChar(s[i])
  }

  /** `ltrim($s)`: the longest suffix of `s` that does not start with a trim character. */
  function TrimLeft(s: string): string
  {
    if |s| > 0 && IsTrimChar(s[0]) then TrimLeft(s[1..]) else s
  }

  /** `ltrim()` removes exactly the leading run of trim characters. */
  lemma {:induction false} TrimLeftSpec(s: string)
    ensures var r := TrimLeft(s);
      |r| <= |s| && r == s[|s| - |r|..] &&
      AllTrimChars(s[..|s| - |r|]) &&
      (|r| > 0 ==> !IsTrimChar(r[0]))
  {
    if |s| > 0 && IsTrimChar(s[0]) {
      TrimLeftSpec(s[1..]);
      var r := TrimLeft(s);
      assert s[..|s| - |r|] == [s[0]] + s[1..][..|s| - 1 - |r|];
    }
  }

  /** `rtrim($s)`: the longest prefix of `s` that does not end with a trim character. */
  function TrimRight(s: string): string
  {
    if |s| > 0 && IsTrimChar(s[|s| - 1]) then TrimRight(s[..|s| - 1]) else s
  }

  /** `rtrim()` removes exactly the trailing run of trim characters. */
  lemma {:induction false} TrimRightSpec(s: string)
    ensures var r := TrimRight(s);
      |r| <= |s| && r == s[..|r|] &&
      AllTrimChars(s[|r|..]) &&
      (|r| > 0 ==> !IsTrimChar(r[|r| - 1]))
  {
    if |s| > 0 && IsTrimChar(s[|s| - 1]) {
      TrimRightSpec(s[..|s| - 1]);
      var r := TrimRight(s);
      assert s[|r|..] == s[..|s| - 1][|r|..] + [s[|s| - 1]];
    }
  }

  /** `trim($s)`. */
  function Trim(s: string): string
  {
    TrimRight(TrimLeft(s))
  }

  /** Left-trimming a concatenation whose second part starts with a
      character `trim()` keeps: only the first part loses characters. */
  lemma {:induction false} TrimLeftConcat(x: string, y: string)
    requires |y| > 0 && !IsTrimChar(y[0])
    ensures TrimLeft(x + y) == TrimLeft(x) + y
  {
    if |x| > 0 && IsTrimChar(x[0]) {
      assert (x + y)[1..] == x[1..] + y;
      TrimLeftConcat(x[1..], y);
    } else if |x| == 0 {
      assert x + y == y;
    }
  }

  /** A string that ends in a kept character is unchanged by `rtrim()`. */
  lemma TrimRightKeeps(s: string)
    requires |s| > 0 && !IsTrimChar(s[|s| - 1])
    ensures TrimRight(s) == s
  {
  }

  /** Left-trimming a string that ends in a single space. */
  lemma {:induction false} TrimLeftSpaceSuffix(p: string)
    ensures TrimLeft(p + " ") == if AllTrimChars(p) then "" else TrimLeft(p) + " "
  {
    if |p| == 0 {
      assert p + " " == " ";
    } else if IsTrimChar(p[0]) {
      assert (p + " ")[1..] == p[1..] + " ";
      TrimLeftSpaceSuffix(p[1..]);
      assert AllTrimChars(p) <==> AllTrimChars(p[1..]) by {
        if AllTrimChars(p[1..]) {
          forall i | 0 <= i < |p| ensures IsTrimChar(p[i]) {
            if i > 0 { assert p[i] == p[1..][i - 1]; }
          }
        }
      }
    } else {
      assert !AllTrimChars(p);
    }
  }

  /** Regrouping a concatenation. */
  lemma Regroup(a: string, b: string, c: string, e: string)
    ensures a + (b + c + e) == a + b + c + e
  {
  }

  /** Trimming `p . ' ' . d . ' ' . h` when d starts and h ends with a kept
      character: only leading characters of p can go. */
  lemma TrimSpaced(p: string, d: string, h: string)
    requires |d| > 0 && !IsTrimChar(d[0])
    requires |h| > 0 && !IsTrimChar(h[|h| - 1])
    ensures Trim(p + " " + d + " " + h) == (if AllTrimChars(p) then "" else TrimLeft(p) + " ") + d + " " + h
  {
    var tail := d + " " + h;
    assert tail[0] == d[0];
    assert p + " " + d + " " + h == (p + " ") + tail;
    TrimLeftConcat(p + " ", tail);
    TrimLeftSpaceSuffix(p);
    var left := TrimLeft(p + " ") + tail;
    assert left[|left| - 1] == h[|h| - 1];
    TrimRightKeeps(left);
    Regroup(if AllTrimChars(p) then "" else TrimLeft(p) + " ", d, " ", h);
  }

  predicate IsDigit(c: char)
  {
    '0' <= c <= '9'
  }

  function DigitChar(d: int): (c: char)
    requires 0 <= d < 10
  {
    "0123456789"[d]
  }

  /** The value of a digit character. */
  function DigitValue(c: char): int
    requires IsDigit(c)
  {
    c as int - '0' as int
  }

  /** The decimal text of a natural number, without leading zeros. */
  function NatToString(n: nat): (s: string)
    ensures |s| > 0
    ensures forall i :: 0 <= i < |s| ==> IsDigit(s[i])
    ensures s[0] == '0' ==> n == 0
  {
    if n < 10 then [DigitChar(n)] else NatToString(n / 10) + [DigitChar(n % 10)]
  }

  /** The value of a string of decimal digits. */
  function DigitsValue(s: string): nat
    requires forall i :: 0 <= i < |s| ==> IsDigit(s[i])
  {
    if |s| == 0 then 0 else DigitsValue(s[..|s| - 1]) * 10 + DigitValue(s[|s| - 1])
  }

  /** Reading back the decimal text of n gives n. */
  lemma {:induction false} NatToStringRoundTrip(n: nat)
    ensures DigitsValue(NatToString(n)) == n
  {
    if n >= 10 {
      var s := NatToString(n);
      assert s[..|s| - 1] == NatToString(n / 10);
      NatToStringRoundTrip(n / 10);
    }
  }

  /** `(string)$i` for a PHP integer. */
  function IntToString(i: int): (s: string)
    ensures |s| > 0
    ensures i < 0 <==> s[0] == '-'
    ensures i >= 0 ==> forall j :: 0 <= j < |s| ==> IsDigit(s[j])
  {
    if i < 0 then "-" + NatToString(-i) else NatToString(i)
  }

  /** The value of an optionally signed decimal text. */
  function SignedValue(s: string): int
    requires |s| > 0
    requires s[0] == '-' ==> forall i :: 1 <= i < |s| ==> IsDigit(s[i])
    requires s[0] != '-' ==> forall i :: 0 <= i < |s| ==> IsDigit(s[i])
  {
    if s[0] == '-' then 0 - DigitsValue(s[1..]) as int else DigitsValue(s)
  }

  /** Reading back the text of any integer gives that integer. */
  lemma IntToStringRoundTrip(i: int)
    ensures SignedValue(IntToString(i)) == i
  {
    var s := IntToString(i);
    if i < 0 {
      var t := NatToString(-i);
      assert s == "-" + t;
      assert s[1..] == t;
      NatToStringRoundTrip(-i);
    } else {
      var t := NatToString(i);
      assert s == t && t[0] != '-';
      NatToStringRoundTrip(i);
    }
  }

  /** Different integers have different texts. */
  lemma IntToStringInjective(i: int, j: int)
    requires IntToString(i) == IntToString(j)
    ensures i == j
  {
    IntToStringRoundTrip(i);
    IntToStringRoundTrip(j);
  }
}

=== FILE: response_lifecycle.dfy ===
/** A builder driven by a chain of mutator calls, as a caller writes
    `$response->setHeaders(...)->setStatusCode(...)->...`. A call that
    throws stops the chain; the changes made by the calls before it stay. */
module ResponseLifecycle {
  import opened Wrappers
  import opened PhpArray
  import opened StatusCodes
  import opened HttpResponse

  /** One non-terminal call on the builder. */
  datatype Call =
    | ResetCall
    | SetStatusCodeCall(code: int)
    | SetHeadersCall(headers: Arr)
    | RemoveHeadersCall(headers: Arr)
    | SetBodyCall(body: string)

  /** The effect of one call; only `setStatusCode` can throw. */
  function Apply(r: Response, c: Call): (res: Result<Response, Error>)
    ensures res.Failure? <==> c.SetStatusCodeCall? && !IsValidStatusCode(c.code)
    ensures Valid(r) && res.Success? ==> Valid(res.value)
  {
    match c
    case ResetCall => Success(Reset(r))
    case SetStatusCodeCall(code) => SetStatusCode(r, code)
    case SetHeadersCall(h) => Success(SetHeaders(r, h))
    case RemoveHeadersCall(h) => Success(RemoveHeaders(r, h))
    case SetBodyCall(b) => Success(SetBody(r, b))
  }

  /** The builder after a chain of calls, and the exception that ended it, if any. */
  datatype Outcome = Outcome(state: Response, error: Option<Error>)

  function Run(r: Response, calls: seq<Call>): Outcome
    decreases |calls|
  {
    if |calls| == 0 then Outcome(r, None)
    else match Apply(r, calls[0])
      case Failure(e) => Outcome(r, Some(e))
      case Success(r') => Run(r', calls[1..])
  }

  /** The invariant: starting from a valid builder, every chain of calls
      leaves the status code a key of the table. */
  lemma {:induction false} RunPreservesValid(r: Response, calls: seq<Call>)
    requires Valid(r)
    ensures Valid(Run(r, calls).state)
    decreases |calls|
  {
    if |calls| > 0 {
      match Apply(r, calls[0]) {
        case Failure(e) =>
        case Success(r') => RunPreservesValid(r', calls[1..]);
      }
    }
  }

  /** Hence `getStatusCode()` never fails on a builder reached from a new
      one, and reports the table's phrase for the current code. */
  lemma ReachableStatusHasPhrase(calls: seq<Call>)
    ensures Valid(Run(Initial, calls).state)
    ensures var s := Run(Initial, calls).state;
      GetStatusCode(s) == StatusInfo(s.statusCode, Phrase(s.statusCode))
  {
    InitialValid();
    RunPreservesValid(Initial, calls);
  }

  /** A chain throws exactly when it contains a `setStatusCode` with a code
      outside the table; the exception is then InvalidStatusCode. */
  lemma {:induction false} RunFailsExactlyOnInvalidCode(r: Response, calls: seq<Call>)
    ensures Run(r, calls).error.Some? <==>
      exists i :: 0 <= i < |calls| && calls[i].SetStatusCodeCall? && !IsValidStatusCode(calls[i].code)
    ensures Run(r, calls).error.Some? ==> Run(r, calls).error.value == InvalidStatusCode(SetStatusCodeMessage)
    decreases |calls|
  {
    if |calls| > 0 {
      match Apply(r, calls[0]) {
        case Failure(e) =>
        case Success(r') =>
          RunFailsExactlyOnInvalidCode(r', calls[1..]);
          if exists i :: 0 <= i < |calls| && calls[i].SetStatusCodeCall? && !IsValidStatusCode(calls[i].code) {
            var i :| 0 <= i < |calls| && calls[i].SetStatusCodeCall? && !IsValidStatusCode(calls[i].code);
            assert calls[1..][i - 1] == calls[i];
          }
      }
    }
  }

  /** No call of the chain throws. */
  predicate NoneThrows(calls: seq<Call>)
  {
    forall i :: 0 <= i < |calls| ==> calls[i].SetStatusCodeCall? ==> IsValidStatusCode(calls[i].code)
  }

  /** Reference definition of the status code after a chain: the code of
      the last `reset()` (200) or `setStatusCode()`, or the starting code. */
  function LastStatus(start: int, calls: seq<Call>): int
    decreases |calls|
  {
    if |calls| == 0 then start
    else match calls[|calls| - 1]
      case ResetCall => 200
      case SetStatusCodeCall(code) => code
      case _ => LastStatus(start, calls[..|calls| - 1])
  }

  /** Reference definition of the body after a chain: the argument of the
      last `setBody()` unless a `reset()` came after it, or the starting body. */
  function LastBody(start: Option<string>, calls: seq<Call>): Option<string>
    decreases |calls|
  {
    if |calls| == 0 then start
    else match calls[|calls| - 1]
      case ResetCall => None
      case SetBodyCall(b) => Some(b)
      case _ => LastBody(start, calls[..|calls| - 1])
  }

  /** Running a chain one call longer applies that call to the state reached. */
  lemma {:induction false} RunSnoc(r: Response, calls: seq<Call>, c: Call)
    requires Run(r, calls).error.None?
    ensures Run(r, calls + [c]) == match Apply(Run(r, calls).state, c)
      case Failure(e) => Outcome(Run(r, calls).state, Some(e))
      case Success(r') => Outcome(r', None)
    decreases |calls|
  {
    if |calls| > 0 {
      assert (calls + [c])[0] == calls[0];
      assert (calls + [c])[1..] == calls[1..] + [c];
      match Apply(r, calls[0]) {
        case Failure(e) =>
        case Success(r') => RunSnoc(r', calls[1..], c);
      }
    } else {
      assert calls + [c] == [c];
    }
  }

  /** When nothing throws, the status code and the body after a chain are
      the ones the reference definitions pick out. */
  lemma {:induction false} RunMatchesLastWrites(r: Response, calls: seq<Call>)
    requires NoneThrows(calls)
    ensures Run(r, calls).error.None?
    ensures Run(r, calls).state.statusCode == LastStatus(r.statusCode, calls)
    ensures Run(r, calls).state.body == LastBody(r.body, calls)
    decreases |calls|
  {
    if |calls| > 0 {
      var init := calls[..|calls| - 1];
      var c := calls[|calls| - 1];
      assert calls == init + [c];
      assert NoneThrows(init) by {
        forall i | 0 <= i < |init| ensures init[i] == calls[i] { }
      }
      RunMatchesLastWrites(r, init);
      RunSnoc(r, init, c);
    }
  }

  /** `getBody()` stays null until `setBody()` is called. */
  lemma {:induction false} BodyNullUntilSet(r: Response, calls: seq<Call>)
    requires r.body == None
    requires forall i :: 0 <= i < |calls| ==> !calls[i].SetBodyCall?
    ensures Run(r, calls).state.body == None
    decreases |calls|
  {
    if |calls| > 0 {
      match Apply(r, calls[0]) {
        case Failure(e) =>
        case Success(r') =>
          assert forall i :: 0 <= i < |calls[1..]| ==> calls[1..][i] == calls[i + 1];
          BodyNullUntilSet(r', calls[1..]);
      }
    }
  }

  /** `reset()` never clears the removal array: every key it holds stays
      a key through any chain of calls. */
  lemma {:induction false} RemovalsOnlyGrow(r: Response, calls: seq<Call>, k: Key)
    requires Get(r.removeHeaders, k).Some?
    ensures Get(Run(r, calls).state.removeHeaders, k).Some?
    decreases |calls|
  {
    if |calls| > 0 {
      match Apply(r, calls[0]) {
        case Failure(e) =>
        case Success(r') => RemovalsOnlyGrow(r', calls[1..], k);
      }
    }
  }
}

=== FILE: response_properties.dfy ===
/** Properties of the response builder that relate several operations. */
module ResponseProperties {
  import opened Wrappers
  import opened PhpArray
  import opened PhpText
  import opened StatusCodes
  import opened HttpResponse

  /** Without a server protocol the status line is `HTTP/1.1 <code> <phrase>`. */
  lemma DefaultStatusLine(code: int)
    requires IsValidStatusCode(code)
    ensures StatusLine(None, code) == "HTTP/1.1 " + IntToString(code) + " " + Phrase(code)
  {
    DefaultProtocolKept();
  }

  lemma DefaultProtocolKept()
    ensures Protocol(None) == "HTTP/1.1"
    ensures !AllTrimChars("HTTP/1.1") && TrimLeft("HTTP/1.1") + " " == "HTTP/1.1 "
  {
    assert !IsTrimChar("HTTP/1.1"[0]);
  }

  /** Setting a table code and reading it back yields that code and its
      phrase; the phrase lookup never fails on a valid builder. */
  lemma SetThenGetStatusCode(r: Response, code: int)
    requires IsValidStatusCode(code)
    ensures SetStatusCode(r, code).Success?
    ensures GetStatusCode(SetStatusCode(r, code).value) == StatusInfo(code, Phrase(code))
  {
  }

  /** Two `setHeaders()` calls: the later value wins for a shared key,
      the earlier one survives for keys only it names. */
  lemma SetHeadersLastWriteWins(r: Response, h1: Arr, h2: Arr, k: Key)
    ensures Get(GetHeaders(SetHeaders(SetHeaders(r, h1), h2)), k)
      == if Get(h2, k).Some? then Get(h2, k) else if Get(h1, k).Some? then Get(h1, k) else Get(GetHeaders(r), k)
  {
  }

  /** `reset()` forgets everything but the removal array: two builders
      reset to the same state exactly when their removal arrays agree. */
  lemma ResetForgetsAllButRemovals(r1: Response, r2: Response)
    ensures Reset(r1) == Reset(r2) <==> r1.removeHeaders == r2.removeHeaders
    ensures Reset(Reset(r1)) == Reset(r1)
  {
  }

  /** In what `send()` emits, every `header_remove()` comes before every
      header that is set, so a header removed and set again stays set. */
  lemma SendRemovesBeforeSetting(r: Response, serverProtocol: Option<string>, i: int, j: int)
    requires Valid(r)
    requires 0 < i < |Send(r, serverProtocol).emitted| && 0 < j < |Send(r, serverProtocol).emitted|
    requires Send(r, serverProtocol).emitted[i].HeaderRemove?
    requires Send(r, serverProtocol).emitted[j].HeaderLine?
    ensures i < j
  {
    var s := Send(r, serverProtocol);
    var nr := |r.removeHeaders|;
    if j <= nr {
      SendRemovalAt(r, serverProtocol, j - 1);
    }
    if i > nr {
      if i < 1 + nr + |r.headers| {
        SendHeaderAt(r, serverProtocol, i - 1 - nr);
      }
    }
  }

  /** Removing a header by a list (`removeHeaders(['X'])`) and then setting
      it (`setHeaders(['X' => v])`): `send()` removes X and then sets it to v. */
  lemma RemoveThenSetIsEmitted(r: Response, name: string, v: string, serverProtocol: Option<string>)
    requires Valid(r)
    ensures var s := Send(SetHeaders(RemoveHeaders(r, [(IntKey(0), name)]), [(StrKey(name), v)]), serverProtocol);
      exists i, j :: 0 < i < j < |s.emitted| && s.emitted[i] == HeaderRemove(name) && s.emitted[j] == HeaderLine(name + ": " + v)
  {
    var r1 := RemoveHeaders(r, [(IntKey(0), name)]);
    var r2 := SetHeaders(r1, [(StrKey(name), v)]);
    assert Get(r2.removeHeaders, IntKey(0)) == Some(name) by {
      assert Get([(IntKey(0), name)], IntKey(0)) == Some(name);
    }
    assert Get(r2.headers, StrKey(name)) == Some(v) by {
      assert Get([(StrKey(name), v)], StrKey(name)) == Some(v);
    }
    var i := IndexOf(r2.removeHeaders, IntKey(0)).value;
    var j := IndexOf(r2.headers, StrKey(name)).value;
    SendRemovalAt(r2, serverProtocol, i);
    SendHeaderAt(r2, serverProtocol, j);
    assert KeyText(StrKey(name)) == name;
    assert 0 < 1 + i < 1 + |r2.removeHeaders| + j;
  }

  /** Every `header_remove()` that `send()` emits names a value of the
      removal array, at the position of its entry. */
  lemma SendRemovesOnlyListed(r: Response, serverProtocol: Option<string>, j: int)
    requires Valid(r)
    requires 0 <= j < |Send(r, serverProtocol).emitted| && Send(r, serverProtocol).emitted[j].HeaderRemove?
    ensures 0 < j <= |r.removeHeaders|
    ensures r.removeHeaders[j - 1].1 == Send(r, serverProtocol).emitted[j].name
  {
    var nr := |r.removeHeaders|;
    if 0 < j <= nr {
      SendRemovalAt(r, serverProtocol, j - 1);
    } else if nr < j < 1 + nr + |r.headers| {
      SendHeaderAt(r, serverProtocol, j - 1 - nr);
    }
  }

  /** `send()` calls `header_remove(name)` exactly when `name` is a value
      of the removal array. */
  lemma SendRemovesExactlyListed(r: Response, serverProtocol: Option<string>, name: string)
    requires Valid(r)
    ensures HeaderRemove(name) in Send(r, serverProtocol).emitted <==>
      exists i :: 0 <= i < |r.removeHeaders| && r.removeHeaders[i].1 == name
  {
    var e := Send(r, serverProtocol).emitted;
    if exists i :: 0 <= i < |r.removeHeaders| && r.removeHeaders[i].1 == name {
      var i :| 0 <= i < |r.removeHeaders| && r.removeHeaders[i].1 == name;
      SendRemovalAt(r, serverProtocol, i);
      assert e[1 + i] == HeaderRemove(name);
    }
    if HeaderRemove(name) in e {
      var j :| 0 <= j < |e| && e[j] == HeaderRemove(name);
      SendRemovesOnlyListed(r, serverProtocol, j);
    }
  }

  /** Two list-shaped `removeHeaders()` calls on a builder with no removals
      both write key 0, so only the second name is left to remove. */
  lemma RemovalListsOverwrite(r: Response, a: string, b: string)
    requires r.removeHeaders == []
    ensures RemoveHeaders(RemoveHeaders(r, [(IntKey(0), a)]), [(IntKey(0), b)]).removeHeaders == [(IntKey(0), b)]
  {
    SecondListWins(a, b);
  }

  /** Hence `send()` after `removeHeaders(['A'])->removeHeaders(['B'])`
      removes B and not A. */
  lemma OnlySecondRemovalSent(r: Response, a: string, b: string, serverProtocol: Option<string>)
    requires Valid(r) && r.removeHeaders == [] && a != b
    ensures var e := Send(RemoveHeaders(RemoveHeaders(r, [(IntKey(0), a)]), [(IntKey(0), b)]), serverProtocol).emitted;
      HeaderRemove(b) in e && HeaderRemove(a) !in e
  {
    var r2 := RemoveHeaders(RemoveHeaders(r, [(IntKey(0), a)]), [(IntKey(0), b)]);
    RemovalListsOverwrite(r, a, b);
    SendRemovesExactlyListed(r2, serverProtocol, a);
    SendRemovesExactlyListed(r2, serverProtocol, b);
    assert r2.removeHeaders[0].1 == b;
  }

  /** `send()` echoes nothing but the body, and the body only when it is not null. */
  lemma SendEchoesOnlyBody(r: Response, serverProtocol: Option<string>, i: int)
    requires Valid(r)
    requires 0 <= i < |Send(r, serverProtocol).emitted| && Send(r, serverProtocol).emitted[i].Echo?
    ensures r.body == Some(Send(r, serverProtocol).emitted[i].text)
    ensures i == |Send(r, serverProtocol).emitted| - 1
  {
    var nr := |r.removeHeaders|;
    if 0 < i <= nr {
      SendRemovalAt(r, serverProtocol, i - 1);
    } else if nr < i < 1 + nr + |r.headers| {
      SendHeaderAt(r, serverProtocol, i - 1 - nr);
    }
  }

  lemma Text301()
    ensures IntToString(301) == "301"
  {
    assert NatToString(30) == "30";
  }

  lemma MovedPermanentlyLine()
    ensures "HTTP/1.1 " + IntToString(301) + " " + Phrase(301) == "HTTP/1.1 301 Moved Permanently"
  {
    Text301();
    assert Phrase(301) == "Moved Permanently";
  }

  lemma Text200()
    ensures IntToString(200) == "200"
  {
    assert NatToString(20) == "20";
  }

  lemma OkLine()
    ensures "HTTP/1.1 " + IntToString(200) + " " + Phrase(200) == "HTTP/1.1 200 OK"
  {
    Text200();
    assert Phrase(200) == "OK";
  }

  /** The status given to `redirect()` never reaches the status line: the
      first `header()` call of a 301 redirect carries `HTTP/1.1 200 OK`. */
  lemma RedirectIgnoresStatus(url: string)
    ensures Redirect(Initial, url, 301, None).Success?
    ensures Redirect(Initial, url, 301, None).value.emitted[0] == HeaderLine("HTTP/1.1 200 OK")
  {
    DefaultStatusLine(200);
    OkLine();
  }

  /** With the correction the first `header()` call of a 301 redirect
      carries `HTTP/1.1 301 Moved Permanently`. */
  lemma RedirectWithStatusMovedPermanently(url: string)
    ensures RedirectWithStatus(Initial, url, 301, None).Success?
    ensures RedirectWithStatus(Initial, url, 301, None).value.emitted[0] == HeaderLine("HTTP/1.1 301 Moved Permanently")
  {
    DefaultStatusLine(301);
    MovedPermanentlyLine();
  }
}

=== FILE: status_codes.dfy ===
/** The fixed table of status codes the response builder accepts, with
    their reason phrases, copied entry for entry (including its quirks:
    205 carries the phrase of 206, 206 itself is absent, and the retired
    306 is present). */
module StatusCodes {
  import opened Wrappers
  import opened PhpText

  /** `$valid_status_codes[$code]`: the reason phrase the table gives a
      code, or None when the code is not a key of the table. Every key is
      a code between 100 and 511. */
  function Lookup(code: int): (r: Option<string>)
    ensures r.Some? ==> 100 <= code <= 511
  {
    match code
    case 100 => Some("Continue")
    case 101 => Some("Switching Protocols")
    case 102 => Some("Processing")
    case 103 => Some("Early Hints")
    case 200 => Some("OK")
    case 201 => Some("Created")
    case 202 => Some("Accepted")
    case 203 => Some("Non-Authoritative Information")
    case 204 => Some("No Content")
    case 205 => Some("Partial Content")
    case 207 => Some("Multi-Status")
    case 208 => Some("Already Reported")
    case 226 => Some("IM Used")
    case 300 => Some("Multiple Choices")
    case 301 => Some("Moved Permanently")
    case 302 => Some("Found")
    case 303 => Some("See Other")
    case 304 => Some("Not Modified")
    case 305 => Some("Use Proxy")
    case 306 => Some("Switch Proxy")
    case 307 => Some("Temporary Redirect")
    case 308 => Some("Permanent Redirect")
    case 400 => Some("Bad Request")
    case 401 => Some("Unauthorized")
    case 402 => Some("Payment Required")
    case 403 => Some("Forbidden")
    case 404 => Some("Not Found")
    case 405 => Some("Method Not Allowed")
    case 406 => Some("Not Acceptable")
    case 407 => Some("Proxy Authentication Required")
    case 408 => Some("Request Timeout")
    case 409 => Some("Conflict")
    case 410 => Some("Gone")
    case 411 => Some("Length Required")
    case 412 => Some("Precondition Failed")
    case 413 => Some("Payload Too Large")
    case 414 => Some("URI Too Long")
    case 415 => Some("Unsupported Media Type")
    case 416 => Some("Range Not Satisfiable")
    case 417 => Some("Expectation Failed")
    case 418 => Some("I'm a teapot")
    case 421 => Some("Misdirected Request")
    case 422 => Some("Unprocessable Entity")
    case 423 => Some("Locked")
    case 424 => Some("Failed Dependency")
    case 426 => Some("Upgrade Required")
    case 428 => Some("Precondition Required")
    case 429 => Some("Too Many Requests")
    case 431 => Some("Request Header Fields Too Large")
    case 451 => Some("Unavailable For Legal Reasons")
    case 500 => Some("Internal Server Error")
    case 501 => Some("Not Implemented")
    case 502 => Some("Bad Gateway")
    case 503 => Some("Service Unavailable")
    case 504 => Some("Gateway Timeout")
    case 505 => Some("HTTP Version Not Supported")
    case 506 => Some("Variant Also Negotiates")
    case 507 => Some("Insufficient Storage")
    case 508 => Some("Loop Detected")
    case 510 => Some("Not Extended")
    case 511 => Some("Network Authentication Required")
    case _ => None
  }

  /** `_isValidStatusCode`: the code is a key of the table. Within the
      redirect range [300, 400) exactly the codes 300 to 308 are keys. */
  function IsValidStatusCode(code: int): (b: bool)
    ensures 300 <= code < 400 ==> (b <==> code <= 308)
  {
    Lookup(code).Some?
  }

  /** The reason phrase of a code of the table. */
  function Phrase(code: int): string
    requires IsValidStatusCode(code)
  {
    Lookup(code).value
  }

  /** A phrase `trim()` cannot shorten at either end. */
  predicate PhraseWellFormed(p: string)
  {
    |p| > 0 && !IsTrimChar(p[0]) && !IsTrimChar(p[|p| - 1])
  }

  /** 1xx phrases are well formed. */
  lemma InformationalPhrases(code: int)
    requires IsValidStatusCode(code) && 100 <= code < 200
    ensures PhraseWellFormed(Phrase(code))
  {
  }

  /** 2xx phrases are well formed. */
  lemma SuccessPhrases(code: int)
    requires IsValidStatusCode(code) && 200 <= code < 300
    ensures PhraseWellFormed(Phrase(code))
  {
  }

  /** 3xx phrases are well formed. */
  lemma RedirectionPhrases(code: int)
    requires IsValidStatusCode(code) && 300 <= code < 400
    ensures PhraseWellFormed(Phrase(code))
  {
  }

  /** 4xx phrases below 410 are well formed. */
  lemma ClientErrorPhrasesLow(code: int)
    requires IsValidStatusCode(code) && 400 <= code < 410
    ensures PhraseWellFormed(Phrase(code))
  {
  }

  /** 4xx phrases from 410 to 419 are well formed. */
  lemma ClientErrorPhrasesMid(code: int)
    requires IsValidStatusCode(code) && 410 <= code < 420
    ensures PhraseWellFormed(Phrase(code))
  {
  }

  /** 4xx phrases from 420 on are well formed. */
  lemma ClientErrorPhrasesHigh(code: int)
    requires IsValidStatusCode(code) && 420 <= code < 500
    ensures PhraseWellFormed(Phrase(code))
  {
  }

  /** 5xx phrases below 506 are well formed. */
  lemma ServerErrorPhrasesLow(code: int)
    requires IsValidStatusCode(code) && 500 <= code < 506
    ensures PhraseWellFormed(Phrase(code))
  {
  }

  /** 5xx phrases from 506 on are well formed. */
  lemma ServerErrorPhrasesHigh(code: int)
    requires IsValidStatusCode(code) && 506 <= code < 600
    ensures PhraseWellFormed(Phrase(code))
  {
  }

  /** Every phrase of the table is non-empty and starts and ends with a
      character `trim()` keeps. */
  lemma AllPhrasesWellFormed(code: int)
    requires IsValidStatusCode(code)
    ensures PhraseWellFormed(Phrase(code))
  {
    if code < 200 { InformationalPhrases(code); }
    else if code < 300 { SuccessPhrases(code); }
    else if code < 400 { RedirectionPhrases(code); }
    else if code < 410 { ClientErrorPhrasesLow(code); }
    else if code < 420 { ClientErrorPhrasesMid(code); }
    else if code < 500 { ClientErrorPhrasesHigh(code); }
    else if code < 506 { ServerErrorPhrasesLow(code); }
    else { ServerErrorPhrasesHigh(code); }
  }

  /** The quirks of the table: 205 is labelled with the phrase of 206, 206
      is not a key, 306 is, and 200 is OK. */
  lemma TableQuirks()
    ensures Phrase(205) == "Partial Content"
    ensures !IsValidStatusCode(206)
    ensures IsValidStatusCode(306) && Phrase(306) == "Switch Proxy"
    ensures IsValidStatusCode(200) && Phrase(200) == "OK"
  {
  }
}

=== FILE: wrappers.dfy ===
/** Option and Result, shared by the other modules. */
module Wrappers {

  /** PHP's nullable value: `null` or a value. */
  datatype Option<+T> = None | Some(value: T) {

    /** The value, or the given default when this is None. */
    function GetOr(default: T): T
    {
      match this
      case Some(v) => v
      case None => default
    }
  }

  /** The outcome of an operation that may throw. */
  datatype Result<+R, +E> = Success(value: R) | Failure(error: E)
}
